=== FILE: README.md ===
# Association-rule miner of the flight-traffic dashboard, in Dafny

This project models the association-rule mining page of the airline traffic
dashboard (`pages/asso.py`). The page is a depth-2 Apriori over route records:

1. **Discretizers.** Nine threshold functions turn each traffic measurement
   (passengers, freight, mail, and their to/from-city variants) into a level
   label such as `Pax_Low` or `Freight_zero` (module `Levels`).
2. **Basket builder.** Each record becomes a transaction of twelve items:
   `Origin=<city1>`, `Dest=<city2>`, `Month=<Abbrev>`, then the nine level
   labels (module `Basket`).
3. **Frequency counter.** It computes the minimum support count
   `max(1, ceil(0.01 n))`, the per-item transaction counts, the frequent items,
   the candidate pairs (two frequent items in sorted order) and the pair counts
   (module `Counting`).
4. **Rule deriver.** Each counted pair that reaches the minimum count is
   scored for support, confidence in both directions and lift. Each direction
   with confidence at least 0.4 becomes a rule (module `Rules`). The rules are
   then sorted descending by (lift, confidence, support) (module `Ranking`).
5. **Rule categorizer.** Three views filter the sorted table. The seasonality
   view keeps rules whose antecedent starts with `Month=`. The traffic-correlation
   view (first 50) and the traffic-imbalance view (first 50) use substring tests
   (module `Views`).

Module `Mining` runs the whole pipeline and states it end to end against two
reference counts over the baskets: `Occurrences` (transactions holding an item)
and `CoOccurrences` (transactions holding both items of a pair). Every rule in the
table is supported by the baskets (`Sound`). Every direction that clears both
thresholds appears in the table. The table is ranked, and each view is an
order-preserving part of it.

Measurements, thresholds and ratios are exact `real`s. Item strings are
`seq<char>`. Python's `<` on strings is `Strings.LexLess`, which compares by code
point. Dafny's own `<` on sequences tests for a proper prefix, so it is not used
for this.

The code raises no error on zero records or on negative readings, and the
model follows it. With zero records every counter is empty, so no division
happens and the table is empty (`Mining.Mine`). A negative reading lands in the
Low bin of its scale. The order among rules with equal keys is not visible in
the code, so the model promises only non-increasing order and a permutation.

## Model

| member | source | states |
|---|---|---|
| Levels.PaxLevel | pages/asso.py:11-14 | the label is the threshold-table label of the passenger scale: Low below 2000, Medium from 2000 up to and including 10000, High above |
| Levels.FreightLevel | pages/asso.py:16-20 | the label is the table label of the freight scale: zero at exactly 0, Low below 2, Medium up to and including 50, High above |
| Levels.MailLevel | pages/asso.py:22-26 | the label is the table label of the mail scale: zero at 0, Low up to and including 2, Medium up to and including 11, High above |
| Levels.PaxToLevel | pages/asso.py:28-31 | the label is the table label of the pax-to scale: Low below 1200, Medium up to and including 6000, High above |
| Levels.PaxFromLevel | pages/asso.py:33-36 | the label is the table label of the pax-from scale: Low below 1200, Medium up to and including 6000, High above |
| Levels.FreightToLevel | pages/asso.py:38-42 | the label is the table label of the freight-to scale: zero at 0, Low below 0.75, Medium up to and including 15, High above |
| Levels.FreightFromLevel | pages/asso.py:44-48 | the label is the table label of the freight-from scale: zero at 0, Low below 0.75, Medium up to and including 20, High above |
| Levels.MailToLevel | pages/asso.py:50-54 | the label is the table label of the mail-to scale: zero at 0, Low up to and including 1.5, Medium up to and including 7, High above |
| Levels.MailFromLevel | pages/asso.py:56-60 | the same table label as mail-to under its own stem; the plain `if` after the zero test acts as `elif` |
| Levels.LevelInRange | pages/asso.py:11-60 | every discretizer maps into its own four (or three) labels, and it returns the zero bin exactly for a reading of 0 on a scale that has one |
| Levels.EveryBinReached | pages/asso.py:11-60 | every bin of a scale is the result for some reading (zero only on scales that have it), so each discretizer is onto its labels |
| Levels.LevelMonotone | pages/asso.py:11-60 | a larger reading never gets a lower-ranked label (zero < Low < Medium < High), except that on a scale with a zero bin a negative reading ranks above a reading of exactly 0 |
| Levels.NegativeReadingBreaksMonotonicity | pages/asso.py:16-20 | a reading of -1 gets `Freight_Low`, which ranks above the `Freight_zero` of a reading of 0 |
| Levels.LabelsDisjoint | pages/asso.py:11-60 | two level labels are equal exactly when they come from the same measurement and the same bin, so the naming stems never collide |
| Levels.BoundarySides | pages/asso.py:11-60 | the literal cut-over points land on the side the comparisons give: 1999 is Pax_Low, 2000, 6000 and 10000 are Pax_Medium, 10001 is Pax_High, and freight 2 is Medium while mail 2 is Low |
| Basket.MonthName | pages/asso.py:73-76 | every month renders as a three-letter item value, and it is `nan` exactly for a month outside 1..12 (the round trip is `Basket.MonthRoundTrip`) |
| Basket.MonthRoundTrip | pages/asso.py:73-76 | the month map sends 1..12 to distinct three-letter abbreviations, and the abbreviation gives the month number back |
| Basket.BuildBasket | pages/asso.py:80-95 | every basket has twelve entries |
| Basket.BasketLayout | pages/asso.py:81-94 | entry 0 is `Origin=` followed by city1, entry 1 is `Dest=` followed by city2, entry 2 is `Month=` followed by the month's abbreviation, or `Month=nan` for a month outside 1..12, and entries 3..11 are the nine level labels in column order, each read from its own column |
| Basket.BasketItemsDistinct | pages/asso.py:81-94 | the twelve items of a basket are pairwise distinct, so as a set the basket still has twelve items |
| Basket.Transactions | pages/asso.py:79-95 | one basket per record, in record order |
| Counting.MinSupportCount | pages/asso.py:97-99 | the minimum support count is at least 1 and at least one hundredth of n, and it is the least such count |
| Counting.ItemCounts | pages/asso.py:102-104 | the item counter holds, for every item, the number of transactions that contain it, and it has a key exactly for the items that occur |
| Counting.OccurrencesBySet | pages/asso.py:103-104 | counts depend only on each transaction's set of items: repeated or reordered items change nothing |
| Counting.OccurrencesBounded | pages/asso.py:102-104 | an item count never exceeds the number of transactions |
| Counting.OccurrencesSplit | pages/asso.py:102-104 | counting the concatenation of two transaction lists gives the sum of their counts, so shards merge by addition |
| Counting.FrequentItems | pages/asso.py:106 | the frequent items are counted items, and a counted item is frequent exactly when its count reaches the minimum (against the transactions: `Counting.FrequentIffSupported`) |
| Counting.FrequentIffSupported | pages/asso.py:106 | an item is frequent exactly when it occurs in at least the minimum support count of transactions |
| Counting.CandidatePairs | pages/asso.py:108 | a candidate pair holds two distinct frequent items, and every two frequent items in sorted order form one (uniqueness: `Counting.CandidatePairsCanonical`) |
| Counting.CandidatePairsCanonical | pages/asso.py:106-108 | a candidate pair holds two frequent items with the first sorting strictly before the second, and any two distinct frequent items form exactly one candidate pair |
| Strings.LexLessTrichotomy | pages/asso.py:108 | the order the frequent items are sorted by is irreflexive, asymmetric and connected: two strings are distinct exactly when one sorts before the other, and never both ways |
| Strings.LexLessTransitive | pages/asso.py:108 | that order is transitive, so together with the row above it is a strict total order on strings and `sorted` is well defined |
| Counting.PairCounts | pages/asso.py:108-115 | the pair counter has a key exactly for the candidate pairs that co-occur in some transaction, and its value is the number of transactions containing both items |
| Counting.CoOccurrencesBounded | pages/asso.py:109-115 | a pair count is at most the count of either of its items |
| Counting.CoOccurrencesSymmetric | pages/asso.py:109-115 | a pair count does not depend on the order of the pair |
| Counting.EmptyCounts | pages/asso.py:97-115 | with no transactions the item counter, the frequent items and the pair counter are all empty |
| Rules.RulesOfPair | pages/asso.py:118-132 | a counted pair yields at most two rules; a direction is emitted exactly when the count reaches the minimum and the confidence reaches 0.4; each rule carries support cnt/n, confidence cnt/count(antecedent) and lift confidence/(count(consequent)/n); two rules from one pair are mirror images with equal support and lift, so they never share a direction |
| Rules.ConfidenceThreshold | pages/asso.py:128-132 | the test confidence >= 0.4 is the test cnt >= 0.4 * count(antecedent) |
| Rules.LiftSymmetric | pages/asso.py:125-126 | the two directions of a pair have the same lift |
| Rules.ScoredBounds | pages/asso.py:120-126 | a scored rule has 0 < support <= 1, 0 < confidence <= 1, lift > 0, and lift equals support over the product of the two items' frequencies |
| Rules.LiftOneIsIndependence | pages/asso.py:125-126 | lift is exactly 1 when the confidence equals the consequent's own frequency, and only then |
| Rules.DeriveRules | pages/asso.py:117-132 | every derived rule is justified by a counted pair in one of its two orders, and every direction of a visited pair that clears both thresholds is derived |
| Rules.DeriveRulesKeys | pages/asso.py:117-132 | when each pair is visited once and never together with its reverse, no (antecedent, consequent) direction is derived twice, and every derived direction is a visited pair read one way or the other |
| Rules.WorkedExample | pages/asso.py:117-132 | with 100 transactions, X in 60, Y in 50 and both in 40, the pair yields X->Y (support 0.4, confidence 2/3, lift 4/3) and Y->X (confidence 0.8, lift 4/3) |
| Ranking.RanksAtLeastTotalPreorder | pages/asso.py:139 | ordering by (lift, confidence, support) is reflexive, total and transitive |
| Ranking.Insert | pages/asso.py:134-139 | inserting into a ranked table keeps it ranked and adds exactly that rule |
| Ranking.SortRules | pages/asso.py:134-139 | the sorted table is non-increasing by (lift, confidence, support) and is a permutation of the derived rules |
| Ranking.SortKeepsKeysDistinct | pages/asso.py:134-139 | sorting a table in which no direction repeats gives a table in which no direction repeats |
| Ranking.SortKeepsRules | pages/asso.py:134-139 | a rule is in the sorted table exactly when it was derived |
| Views.Selects | pages/asso.py:142-157 | seasonality: antecedent starts with `Month=`; correlation: antecedent contains `Pax` and consequent contains `Freight` or `Mail`; imbalance: antecedent starts with `Origin=` or `Dest=` and consequent contains `PaxTo` or `PaxFrom`; no rule is selected by both the seasonality and the imbalance view |
| Views.Select | pages/asso.py:142-157 | a selection keeps the table's order and holds exactly the rules of the table that the view's prefix and substring tests accept |
| Views.ViewOf | pages/asso.py:142-157 | a view is an order-preserving part of the table holding only accepted rules; the correlation and imbalance views are the first min(50, selected) rules of the selection; the seasonality view is the whole selection, and a capped view with fewer than 50 rules holds every accepted rule |
| Views.ViewRanked | pages/asso.py:139-157 | every view of a ranked table is ranked |
| Mining.Enumerate | pages/asso.py:118 | the pairs are visited each exactly once |
| Mining.DerivedIsSound | pages/asso.py:117-132 | a rule justified by the counters is supported by the transactions themselves |
| Mining.CountedPairsBounded | pages/asso.py:108-115 | every counted pair holds two distinct items, and its count is at most either item's count, which is at most the number of transactions |
| Mining.MinedKeysDistinct | pages/asso.py:106-139 | the counter holds each candidate pair in one orientation only, so the sorted table never holds a direction twice |
| Mining.MinedRulesSound | pages/asso.py:117-139 | every rule of the sorted table is supported by the transactions |
| Mining.MinedRulesComplete | pages/asso.py:106-139 | every ordered pair of distinct items whose co-occurrence clears the minimum support count and the confidence threshold is a rule of the table |
| Mining.SoundRuleBounds | pages/asso.py:117-132 | a supported rule has 0 < support <= 1, 0.4 <= confidence <= 1, lift > 0 and a support count at least the minimum |
| Mining.Mine | pages/asso.py:97-157 | the table is ranked, sound and complete for the records' baskets; no (antecedent, consequent) direction appears twice; it is empty when there are no records; and the three views are the ranked views of the table |

## Left out

- `1.py`, the dashboard's other page, is not part of this model. It holds page layout, pandas aggregation, PCA, k-means and plotting, which are UI and library calls.
- Reading the CSV file (`pages/asso.py:9`) and the pandas column plumbing (`pages/asso.py:62-71`) are not modelled. Records are the `Basket.Record` datatype and transactions are `seq<string>`.
- The page's overview text (`pages/asso.py:183`) gives "Passenger > 5000" as the Pax_High cut. The code's cut is above 10000, and the model follows the code (`Levels.BoundarySides` has 6000 as Pax_Medium).
- The page's tabs, selectboxes, markdown and table rendering (`pages/asso.py:160-276`) are not modelled. This includes the month selector that narrows the seasonality view and the `head(50)` applied when that view is displayed.
- IEEE floating point is not modelled. Thresholds, `0.01 * n`, support, confidence and lift are exact reals.
- Counting.MinSupportCount: computed from the exact product `0.01 * n`. The page multiplies by the double nearest 0.01, which is not modelled.
- The iteration order of the pair counter and the order among rules with equal (lift, confidence, support) are not modelled. `Mining.Enumerate` picks any order, and `Ranking.SortRules` promises only non-increasing order and a permutation.
- Only the second sort (`pages/asso.py:139`) is modelled. The first sort, on (lift, confidence) at `pages/asso.py:134-137`, is fully reordered by the second except among ties.
- Levels.LevelMonotone: on the six scales with a zero bin it excludes a negative smaller reading paired with a larger reading of exactly 0. That pair is the one case where the order breaks: a negative reading lands in Low, above the zero bin of 0 (`Levels.NegativeReadingBreaksMonotonicity`).
- A missing month makes `astype(int)` (`pages/asso.py:73`) raise, and a fractional month is truncated toward zero. Neither is modelled: the record's month is an `int`. A month outside 1..12 is modelled as `Month=nan`, which is what the unmapped lookup renders as.

=== FILE: basket.dfy ===
/**
 * The basket builder: one record of the traffic table becomes one transaction
 * of twelve items -- origin, destination, month, then the nine level labels.
 */
module Basket {
  import opened Strings
  import opened Levels

  /** One row of the traffic table; the measurement columns are exact reals. */
  datatype Record = Record(
    city1: string,
    city2: string,
    month: int,
    totalPassengers: real,
    totalFreight: real,
    totalMail: real,
    paxToCity2: real,
    paxFromCity2: real,
    freightToCity2: real,
    freightFromCity2: real,
    mailToCity2: real,
    mailFromCity2: real)

  const MonthAbbreviations: seq<string> :=
    ["Jan", "Feb", "Mar", "Apr", "May", "Jun", "Jul", "Aug", "Sep", "Oct", "Nov", "Dec"]

  /** The month map. A month number outside 1..12 is not in the map: the lookup
      yields a missing value, which the item's formatting renders as "nan". */
  function MonthName(month: int): (name: string)
    ensures |name| == 3
    ensures name == "nan" <==> !(1 <= month <= 12)
  {
    if 1 <= month <= 12 then MonthAbbreviations[month - 1] else "nan"
  }

  /** The month number an abbreviation stands for; 0 for any other string. */
  function MonthNumber(name: string): int
  {
    MonthIndexFrom(name, 0)
  }

  function MonthIndexFrom(name: string, k: nat): int
    requires k <= 12
    decreases 12 - k
  {
    if k == 12 then 0
    else if MonthAbbreviations[k] == name then k + 1
    else MonthIndexFrom(name, k + 1)
  }

  /** The month map is one-to-one on 1..12: its abbreviation gives the month back. */
  lemma MonthRoundTrip(month: int)
    requires 1 <= month <= 12
    ensures MonthNumber(MonthName(month)) == month
    ensures |MonthName(month)| == 3
  {
    assert forall i, j :: 0 <= i < j < 12 ==> MonthAbbreviations[i] != MonthAbbreviations[j];
    MonthIndexFromFinds(MonthName(month), 0, month - 1);
  }

  lemma {:induction false} MonthIndexFromFinds(name: string, k: nat, j: nat)
    requires k <= j < 12
    requires MonthAbbreviations[j] == name
    requires forall i :: k <= i < j ==> MonthAbbreviations[i] != name
    ensures MonthIndexFrom(name, k) == j + 1
    decreases j - k
  {
    if k < j {
      MonthIndexFromFinds(name, k + 1, j);
    }
  }

  /** The order of the level items in a basket. */
  const LevelColumns: seq<Measurement> := [
    TotalPassengers, TotalFreight, TotalMail,
    PaxToCity2, PaxFromCity2,
    FreightToCity2, FreightFromCity2,
    MailToCity2, MailFromCity2]

  /** The column of `r` that measurement `m` reads. */
  function Reading(r: Record, m: Measurement): real
  {
    match m
    case TotalPassengers => r.totalPassengers
    case TotalFreight => r.totalFreight
    case TotalMail => r.totalMail
    case PaxToCity2 => r.paxToCity2
    case PaxFromCity2 => r.paxFromCity2
    case FreightToCity2 => r.freightToCity2
    case FreightFromCity2 => r.freightFromCity2
    case MailToCity2 => r.mailToCity2
    case MailFromCity2 => r.mailFromCity2
  }

  function BuildBasket(r: Record): (t: seq<string>)
    ensures |t| == 3 + |LevelColumns|
  {
    [ "Origin=" + r.city1,
      "Dest=" + r.city2,
      "Month=" + MonthName(r.month),
      PaxLevel(r.totalPassengers),
      FreightLevel(r.totalFreight),
      MailLevel(r.totalMail),
      PaxToLevel(r.paxToCity2),
      PaxFromLevel(r.paxFromCity2),
      FreightToLevel(r.freightToCity2),
      FreightFromLevel(r.freightFromCity2),
      MailToLevel(r.mailToCity2),
      MailFromLevel(r.mailFromCity2) ]
  }

  /** One transaction per record, in record order. */
  function Transactions(records: seq<Record>): (ts: seq<seq<string>>)
    ensures |ts| == |records|
    ensures forall k :: 0 <= k < |records| ==> ts[k] == BuildBasket(records[k])
  {
    seq(|records|, k requires 0 <= k < |records| => BuildBasket(records[k]))
  }

  /** The basket layout: origin, destination and month items, then every
      measurement's level label in column order, each read from its own column. */
  lemma BasketLayout(r: Record)
    ensures |BuildBasket(r)| == 12
    ensures StartsWith(BuildBasket(r)[0], "Origin=") && BuildBasket(r)[0][7..] == r.city1
    ensures StartsWith(BuildBasket(r)[1], "Dest=") && BuildBasket(r)[1][5..] == r.city2
    ensures StartsWith(BuildBasket(r)[2], "Month=")
    ensures 1 <= r.month <= 12 ==> MonthNumber(BuildBasket(r)[2][6..]) == r.month
    ensures !(1 <= r.month <= 12) ==> BuildBasket(r)[2] == "Month=nan"
    ensures forall k :: 0 <= k < 9 ==>
      BuildBasket(r)[3 + k] == Level(LevelColumns[k], Reading(r, LevelColumns[k]))
  {
    var t := BuildBasket(r);
    assert t[0][7..] == r.city1;
    assert t[1][5..] == r.city2;
    assert t[2][6..] == MonthName(r.month);
    if 1 <= r.month <= 12 {
      MonthRoundTrip(r.month);
    }
    BasketLevelItems(r);
  }

  lemma BasketLevelItems(r: Record)
    ensures forall k :: 0 <= k < 9 ==>
      BuildBasket(r)[3 + k] == Level(LevelColumns[k], Reading(r, LevelColumns[k]))
  {
    var t := BuildBasket(r);
    forall k | 0 <= k < 9
      ensures t[3 + k] == Level(LevelColumns[k], Reading(r, LevelColumns[k]))
    {
      var m := LevelColumns[k];
      match m
      case TotalPassengers => assert k == 0;
      case TotalFreight => assert k == 1;
      case TotalMail => assert k == 2;
      case PaxToCity2 => assert k == 3;
      case PaxFromCity2 => assert k == 4;
      case FreightToCity2 => assert k == 5;
      case FreightFromCity2 => assert k == 6;
      case MailToCity2 => assert k == 7;
      case MailFromCity2 => assert k == 8;
    }
  }

  /** The twelve items of a basket are pairwise distinct, so the basket is a
      set of exactly twelve items: the three "key=value" items differ in their
      key, level labels carry no '=', and the nine labels have distinct stems. */
  lemma BasketItemsDistinct(r: Record)
    ensures forall i, j :: 0 <= i < j < |BuildBasket(r)| ==> BuildBasket(r)[i] != BuildBasket(r)[j]
    ensures |set x | x in BuildBasket(r)| == 12
  {
    var t := BuildBasket(r);
    forall i, j | 0 <= i < j < 12
      ensures t[i] != t[j]
    {
      BasketItemsDistinctAt(r, i, j);
    }
    DistinctCardinality(t);
  }

  lemma BasketItemsDistinctAt(r: Record, i: nat, j: nat)
    requires i < j < 12
    ensures BuildBasket(r)[i] != BuildBasket(r)[j]
  {
    if j < 3 {
      KeyedItemsDistinct(r, i, j);
    } else if i < 3 {
      KeyedItemIsNoLevel(r, i, j);
    } else {
      LevelItemsDistinct(r, i, j);
    }
  }

  lemma KeyedItemsDistinct(r: Record, i: nat, j: nat)
    requires i < j < 3
    ensures BuildBasket(r)[i] != BuildBasket(r)[j]
  {
    var t := BuildBasket(r);
    assert t[0][0] == 'O' && t[1][0] == 'D' && t[2][0] == 'M';
  }

  lemma KeyedItemIsNoLevel(r: Record, i: nat, j: nat)
    requires i < 3 <= j < 12
    ensures BuildBasket(r)[i] != BuildBasket(r)[j]
  {
    var t := BuildBasket(r);
    BasketLevelItems(r);
    var mj := LevelColumns[j - 3];
    LevelHasNoEquals(mj, Reading(r, mj));
    assert t[j] == Level(mj, Reading(r, mj));
    assert t[0][6] == '=' && t[1][4] == '=' && t[2][5] == '=';
  }

  lemma LevelItemsDistinct(r: Record, i: nat, j: nat)
    requires 3 <= i < j < 12
    ensures BuildBasket(r)[i] != BuildBasket(r)[j]
  {
    BasketLevelItems(r);
    ColumnsDistinct(i - 3, j - 3);
    var mi, mj := LevelColumns[i - 3], LevelColumns[j - 3];
    assert BuildBasket(r)[i] == Level(mi, Reading(r, mi));
    assert BuildBasket(r)[j] == Level(mj, Reading(r, mj));
    DistinctMeasurementsDistinctLevels(mi, Reading(r, mi), mj, Reading(r, mj));
  }

  lemma ColumnsDistinct(i: nat, j: nat)
    requires i < j < 9
    ensures LevelColumns[i] != LevelColumns[j]
  {
  }

  lemma DistinctMeasurementsDistinctLevels(m1: Measurement, x: real, m2: Measurement, y: real)
    requires m1 != m2
    ensures Level(m1, x) != Level(m2, y)
  {
    LabelsDisjoint(m1, Classify(ScaleOf(m1), x), m2, Classify(ScaleOf(m2), y));
  }

  lemma {:induction false} DistinctCardinality(t: seq<string>)
    requires forall i, j :: 0 <= i < j < |t| ==> t[i] != t[j]
    ensures |set x | x in t| == |t|
  {
    if |t| > 0 {
      var last := t[|t| - 1];
      var init := t[..|t| - 1];
      DistinctCardinality(init);
      assert t == init + [last];
      assert (set x | x in t) == (set x | x in init) + {last};
      assert last !in init;
    }
  }
}

=== FILE: counting.dfy ===
/**
 * The frequency counter: the minimum support count, item counts, the frequent
 * items, the candidate pairs drawn from them, and the pair counts.
 *
 * `Occurrences` and `CoOccurrences` are the reference definitions (how many
 * transactions contain an item, or both items of a pair); the counters are
 * written as the miner accumulates them and proved equal to the references.
 */
module Counting {
  import opened Strings

  type Item = string
  type Transaction = seq<Item>
  type Pair = (Item, Item)

  /** The fraction of transactions a pair must reach to be mined. */
  const MinSupport: real := 0.01

  /** A counter read at a key: a missing key counts 0. */
  function Lookup<K>(m: map<K, nat>, k: K): nat
  {
    if k in m then m[k] else 0
  }

  /** The items of a transaction as a set. */
  function Members(t: Transaction): set<Item>
  {
    set x | x in t
  }

  /** The number of transactions that contain item `i`. */
  function Occurrences(ts: seq<Transaction>, i: Item): nat
  {
    if |ts| == 0 then 0
    else Occurrences(ts[..|ts| - 1], i) + (if i in ts[|ts| - 1] then 1 else 0)
  }

  /** The number of transactions that contain both `a` and `b`. */
  function CoOccurrences(ts: seq<Transaction>, a: Item, b: Item): nat
  {
    if |ts| == 0 then 0
    else CoOccurrences(ts[..|ts| - 1], a, b) + (if a in ts[|ts| - 1] && b in ts[|ts| - 1] then 1 else 0)
  }

  /** max(1, ceil(MinSupport * n)): the least count, and at least 1, that
      reaches one hundredth of the `n` transactions. */
  function MinSupportCount(n: nat): (c: nat)
    ensures c >= 1
    ensures n <= 100 * c
    ensures c == 1 || 100 * (c - 1) < n
  {
    var scaled := MinSupport * n as real;
    var ceiling := -((-scaled).Floor);
    assert ceiling as real >= scaled && (ceiling - 1) as real < scaled;
    if ceiling < 1 then 1 else ceiling
  }

  /** The item counter: each transaction adds one to every distinct item it
      holds (the transaction is read as a set). */
  function ItemCounts(ts: seq<Transaction>): (counts: map<Item, nat>)
    ensures forall i :: Lookup(counts, i) == Occurrences(ts, i)
    ensures forall i :: i in counts <==> Occurrences(ts, i) > 0
  {
    if |ts| == 0 then map[]
    else
      var prev := ItemCounts(ts[..|ts| - 1]);
      var t := ts[|ts| - 1];
      map i | i in prev.Keys + Members(t) :: Lookup(prev, i) + (if i in t then 1 else 0)
  }

  /** The items whose count reaches `minCount`. */
  function FrequentItems(counts: map<Item, nat>, minCount: nat): (frequent: set<Item>)
    ensures frequent <= counts.Keys
    ensures forall i :: i in counts ==> (i in frequent <==> counts[i] >= minCount)
  {
    set i | i in counts && counts[i] >= minCount
  }

  /** Every pair of frequent items in sorted order, as the pairs of
      `combinations(sorted(frequent), 2)`. */
  function CandidatePairs(frequent: set<Item>): (pairs: set<Pair>)
    ensures forall p :: p in pairs ==> p.0 in frequent && p.1 in frequent && p.0 != p.1
    ensures forall a, b :: a in frequent && b in frequent && LexLess(a, b) ==> (a, b) in pairs
  {
    var pairs := set a, b | a in frequent && b in frequent && LexLess(a, b) :: (a, b);
    assert forall p :: p in pairs ==> p.0 != p.1 by {
      forall p | p in pairs
        ensures p.0 != p.1
      {
        LexLessIrreflexive(p.0);
      }
    }
    pairs
  }

  /** The pair counter: each transaction adds one to every candidate pair
      whose two items it holds. */
  function PairCounts(ts: seq<Transaction>, pairs: set<Pair>): (counts: map<Pair, nat>)
    ensures forall p :: p in counts <==> p in pairs && CoOccurrences(ts, p.0, p.1) > 0
    ensures forall p :: p in counts ==> counts[p] == CoOccurrences(ts, p.0, p.1)
  {
    if |ts| == 0 then map[]
    else
      var prev := PairCounts(ts[..|ts| - 1], pairs);
      var t := ts[|ts| - 1];
      map p | p in pairs && (p in prev || (p.0 in t && p.1 in t)) ::
        Lookup(prev, p) + (if p.0 in t && p.1 in t then 1 else 0)
  }

  /** An item count never exceeds the number of transactions. */
  lemma {:induction false} OccurrencesBounded(ts: seq<Transaction>, i: Item)
    ensures Occurrences(ts, i) <= |ts|
  {
    if |ts| > 0 {
      OccurrencesBounded(ts[..|ts| - 1], i);
    }
  }

  /** A pair count never exceeds the count of either of its items. */
  lemma {:induction false} CoOccurrencesBounded(ts: seq<Transaction>, a: Item, b: Item)
    ensures CoOccurrences(ts, a, b) <= Occurrences(ts, a)
    ensures CoOccurrences(ts, a, b) <= Occurrences(ts, b)
  {
    if |ts| > 0 {
      CoOccurrencesBounded(ts[..|ts| - 1], a, b);
    }
  }

  /** A pair count does not depend on the order of the pair. */
  lemma {:induction false} CoOccurrencesSymmetric(ts: seq<Transaction>, a: Item, b: Item)
    ensures CoOccurrences(ts, a, b) == CoOccurrences(ts, b, a)
  {
    if |ts| > 0 {
      CoOccurrencesSymmetric(ts[..|ts| - 1], a, b);
    }
  }

  /** Counting is by membership: repeating an item within a transaction, or
      reordering it, leaves every count unchanged. */
  lemma {:induction false} OccurrencesBySet(ts: seq<Transaction>, us: seq<Transaction>, i: Item)
    requires |ts| == |us|
    requires forall k :: 0 <= k < |ts| ==> Members(ts[k]) == Members(us[k])
    ensures Occurrences(ts, i) == Occurrences(us, i)
  {
    if |ts| > 0 {
      var k := |ts| - 1;
      assert Members(ts[k]) == Members(us[k]);
      assert (i in ts[k]) <==> i in Members(ts[k]);
      assert (i in us[k]) <==> i in Members(us[k]);
      OccurrencesBySet(ts[..k], us[..k], i);
    }
  }

  /** Counts over a concatenation are sums, so counting may be split across
      shards of the transactions and merged by adding. */
  lemma {:induction false} OccurrencesSplit(ts: seq<Transaction>, us: seq<Transaction>, i: Item)
    ensures Occurrences(ts + us, i) == Occurrences(ts, i) + Occurrences(us, i)
    decreases |us|
  {
    if |us| > 0 {
      var k := |us| - 1;
      assert (ts + us)[..|ts + us| - 1] == ts + us[..k];
      OccurrencesSplit(ts, us[..k], i);
    } else {
      assert ts + us == ts;
    }
  }

  /** A candidate pair holds two frequent items in sorted order, and every two
      distinct frequent items form exactly one candidate pair. */
  lemma CandidatePairsCanonical(frequent: set<Item>, a: Item, b: Item)
    ensures (a, b) in CandidatePairs(frequent) <==> a in frequent && b in frequent && LexLess(a, b)
    ensures (a, b) in CandidatePairs(frequent) ==> a != b
    ensures a in frequent && b in frequent && a != b ==>
      ((a, b) in CandidatePairs(frequent) <==> (b, a) !in CandidatePairs(frequent))
  {
    LexLessIrreflexive(a);
    LexLessTrichotomy(a, b);
  }

  /** An item is frequent exactly when it occurs in at least `minCount` transactions. */
  lemma FrequentIffSupported(ts: seq<Transaction>, minCount: nat, i: Item)
    requires minCount >= 1
    ensures i in FrequentItems(ItemCounts(ts), minCount) <==> Occurrences(ts, i) >= minCount
  {
  }

  /** With no transactions every counter is empty, so nothing is frequent. */
  lemma EmptyCounts(pairs: set<Pair>, minCount: nat)
    ensures ItemCounts([]) == map[]
    ensures FrequentItems(ItemCounts([]), minCount) == {}
    ensures PairCounts([], pairs) == map[]
  {
  }
}

=== FILE: levels.dfy ===
/**
 * The discretizers: nine threshold functions that turn one traffic
 * measurement into a level label such as "Pax_Low" or "Freight_zero".
 *
 * Each function is written exactly as the miner writes it (literal labels,
 * literal thresholds, the boundary side of every comparison) and is tied by
 * its contract to one row of a threshold table (`Scale`) that is read by a
 * single generic classifier. Measurements are exact reals.
 */
module Levels {

  /** The level bins, lowest first. */
  datatype Bin = Zero | Low | Medium | High {

    function Rank(): nat
    {
      match this
      case Zero => 0
      case Low => 1
      case Medium => 2
      case High => 3
    }

    /** The suffix the label carries after the underscore. */
    function Name(): string
    {
      match this
      case Zero => "zero"
      case Low => "Low"
      case Medium => "Medium"
      case High => "High"
    }
  }

  /** The nine measurement columns of a record, in basket order. */
  datatype Measurement =
    | TotalPassengers | TotalFreight | TotalMail
    | PaxToCity2 | PaxFromCity2
    | FreightToCity2 | FreightFromCity2
    | MailToCity2 | MailFromCity2

  /** One row of the threshold table. A value goes to `Zero` when the scale has
      a zero bin and the value is 0; else to `Low` when it is below `lowCut`
      (or at it, when `lowInclusive`); else to `Medium` when it is at most
      `mediumCut`; else to `High`. */
  datatype Scale = Scale(stem: string, hasZero: bool, lowCut: real, lowInclusive: bool, mediumCut: real)

  function ScaleOf(m: Measurement): Scale
  {
    match m
    case TotalPassengers => Scale("Pax", false, 2000.0, false, 10000.0)
    case TotalFreight => Scale("Freight", true, 2.0, false, 50.0)
    case TotalMail => Scale("Mail", true, 2.0, true, 11.0)
    case PaxToCity2 => Scale("PaxTo", false, 1200.0, false, 6000.0)
    case PaxFromCity2 => Scale("PaxFrom", false, 1200.0, false, 6000.0)
    case FreightToCity2 => Scale("FreightTo", true, 0.75, false, 15.0)
    case FreightFromCity2 => Scale("FreightFrom", true, 0.75, false, 20.0)
    case MailToCity2 => Scale("MailTo", true, 1.5, true, 7.0)
    case MailFromCity2 => Scale("MailFrom", true, 1.5, true, 7.0)
  }

  /** The generic classifier that reads a threshold-table row. */
  function Classify(s: Scale, x: real): Bin
  {
    if s.hasZero && x == 0.0 then Zero
    else if (if s.lowInclusive then x <= s.lowCut else x < s.lowCut) then Low
    else if x <= s.mediumCut then Medium
    else High
  }

  function Label(s: Scale, b: Bin): string
  {
    s.stem + "_" + b.Name()
  }

  /** The label the table assigns to a value of measurement `m`. */
  function TableLabel(m: Measurement, x: real): string
  {
    Label(ScaleOf(m), Classify(ScaleOf(m), x))
  }

  function PaxLevel(x: real): (r: string)
    ensures r == TableLabel(TotalPassengers, x)
  {
    if x < 2000.0 then "Pax_Low"
    else if x <= 10000.0 then "Pax_Medium"
    else "Pax_High"
  }

  function FreightLevel(x: real): (r: string)
    ensures r == TableLabel(TotalFreight, x)
  {
    if x == 0.0 then "Freight_zero"
    else if x < 2.0 then "Freight_Low"
    else if x <= 50.0 then "Freight_Medium"
    else "Freight_High"
  }

  function MailLevel(x: real): (r: string)
    ensures r == TableLabel(TotalMail, x)
  {
    if x == 0.0 then "Mail_zero"
    else if x <= 2.0 then "Mail_Low"
    else if x <= 11.0 then "Mail_Medium"
    else "Mail_High"
  }

  function PaxToLevel(x: real): (r: string)
    ensures r == TableLabel(PaxToCity2, x)
  {
    if x < 1200.0 then "PaxTo_Low"
    else if x <= 6000.0 then "PaxTo_Medium"
    else "PaxTo_High"
  }

  function PaxFromLevel(x: real): (r: string)
    ensures r == TableLabel(PaxFromCity2, x)
  {
    if x < 1200.0 then "PaxFrom_Low"
    else if x <= 6000.0 then "PaxFrom_Medium"
    else "PaxFrom_High"
  }

  function FreightToLevel(x: real): (r: string)
    ensures r == TableLabel(FreightToCity2, x)
  {
    if x == 0.0 then "FreightTo_zero"
    else if x < 0.75 then "FreightTo_Low"
    else if x <= 15.0 then "FreightTo_Medium"
    else "FreightTo_High"
  }

  function FreightFromLevel(x: real): (r: string)
    ensures r == TableLabel(FreightFromCity2, x)
  {
    if x == 0.0 then "FreightFrom_zero"
    else if x < 0.75 then "FreightFrom_Low"
    else if x <= 20.0 then "FreightFrom_Medium"
    else "FreightFrom_High"
  }

  function MailToLevel(x: real): (r: string)
    ensures r == TableLabel(MailToCity2, x)
  {
    if x == 0.0 then "MailTo_zero"
    else if x <= 1.5 then "MailTo_Low"
    else if x <= 7.0 then "MailTo_Medium"
    else "MailTo_High"
  }

  /** `mail_from_level` writes a plain `if` after the zero test; as that test returns,
      it behaves as the `elif` of the other discretizers. */
  function MailFromLevel(x: real): (r: string)
    ensures r == TableLabel(MailFromCity2, x)
  {
    if x == 0.0 then "MailFrom_zero"
    else if x <= 1.5 then "MailFrom_Low"
    else if x <= 7.0 then "MailFrom_Medium"
    else "MailFrom_High"
  }

  /** The discretizer applied to measurement `m`. */
  function Level(m: Measurement, x: real): (r: string)
    ensures r == TableLabel(m, x)
  {
    match m
    case TotalPassengers => PaxLevel(x)
    case TotalFreight => FreightLevel(x)
    case TotalMail => MailLevel(x)
    case PaxToCity2 => PaxToLevel(x)
    case PaxFromCity2 => PaxFromLevel(x)
    case FreightToCity2 => FreightToLevel(x)
    case FreightFromCity2 => FreightFromLevel(x)
    case MailToCity2 => MailToLevel(x)
    case MailFromCity2 => MailFromLevel(x)
  }

  /** The rank of a label among measurement `m`'s labels; -1 for any other string. */
  function LevelRank(m: Measurement, item: string): int
  {
    var s := ScaleOf(m);
    if item == Label(s, Zero) then 0
    else if item == Label(s, Low) then 1
    else if item == Label(s, Medium) then 2
    else if item == Label(s, High) then 3
    else -1
  }

  /** Splitting a label at its first underscore recovers stem and bin name. */
  lemma {:induction false} LabelSplit(s1: string, n1: string, s2: string, n2: string)
    requires '_' !in s1 && '_' !in s2
    requires s1 + "_" + n1 == s2 + "_" + n2
    ensures s1 == s2 && n1 == n2
  {
    var w := s1 + "_" + n1;
    // the first underscore of w sits right after each stem
    assert w[|s1|] == '_' && forall k :: 0 <= k < |s1| ==> w[k] == s1[k];
    assert w[|s2|] == '_' && forall k :: 0 <= k < |s2| ==> w[k] == s2[k];
    assert |s1| == |s2|;
    assert s1 == w[..|s1|] == s2;
    assert n1 == w[|s1| + 1..] == n2;
  }

  /** Stems and bin names are made of ASCII letters only. */
  predicate AllLetters(s: string)
  {
    forall k | 0 <= k < |s| :: 'A' <= s[k] <= 'Z' || 'a' <= s[k] <= 'z'
  }

  /** The stems are pairwise distinct and free of the separators '_' and '='. */
  lemma StemsWellFormed(m1: Measurement, m2: Measurement)
    ensures '_' !in ScaleOf(m1).stem && '=' !in ScaleOf(m1).stem
    ensures m1 != m2 ==> ScaleOf(m1).stem != ScaleOf(m2).stem
  {
    StemLetters(m1);
    var s1, s2 := ScaleOf(m1).stem, ScaleOf(m2).stem;
    // only Freight and PaxFrom share a length, and they differ at index 0
    assert m1 != m2 ==> |s1| != |s2| || s1[0] != s2[0];
  }

  lemma StemLetters(m: Measurement)
    ensures AllLetters(ScaleOf(m).stem)
  {
  }

  lemma NameLetters(b: Bin)
    ensures AllLetters(b.Name())
  {
  }

  /** Each measurement's labels are distinct, and distinct measurements never
      share a label: an item string names one measurement and one bin. */
  lemma LabelsDisjoint(m1: Measurement, b1: Bin, m2: Measurement, b2: Bin)
    ensures Label(ScaleOf(m1), b1) == Label(ScaleOf(m2), b2) <==> m1 == m2 && b1 == b2
  {
    if Label(ScaleOf(m1), b1) == Label(ScaleOf(m2), b2) {
      StemsWellFormed(m1, m2);
      StemsWellFormed(m2, m1);
      LabelSplit(ScaleOf(m1).stem, b1.Name(), ScaleOf(m2).stem, b2.Name());
    }
  }

  /** A level label never contains '=', the separator of the other basket items. */
  lemma LevelHasNoEquals(m: Measurement, x: real)
    ensures '=' !in Level(m, x)
  {
    var stem, name := ScaleOf(m).stem, Classify(ScaleOf(m), x).Name();
    StemLetters(m);
    NameLetters(Classify(ScaleOf(m), x));
    var w := stem + "_" + name;
    assert Level(m, x) == w;
    forall k | 0 <= k < |w|
      ensures w[k] != '='
    {
      if k < |stem| {
        assert w[k] == stem[k];
      } else if k > |stem| {
        assert w[k] == name[k - |stem| - 1];
      }
    }
  }

  /** Every bin of a scale is reached by some reading: the zero bin at 0 and
      the others at -1, at the medium cut and just above it. */
  lemma EveryBinReached(m: Measurement, b: Bin)
    requires b != Zero || ScaleOf(m).hasZero
    ensures exists x :: Classify(ScaleOf(m), x) == b
  {
    var s := ScaleOf(m);
    match b
    case Zero => assert Classify(s, 0.0) == Zero;
    case Low => assert Classify(s, -1.0) == Low;
    case Medium => assert Classify(s, s.mediumCut) == Medium;
    case High => assert Classify(s, s.mediumCut + 1.0) == High;
  }

  /** Every discretizer maps into its own bins: the label it returns has a
      rank in 0..3, and the zero bin is returned exactly for a 0 reading on a
      scale that has one. */
  lemma LevelInRange(m: Measurement, x: real)
    ensures 0 <= LevelRank(m, Level(m, x)) <= 3
    ensures LevelRank(m, Level(m, x)) == Classify(ScaleOf(m), x).Rank()
    ensures LevelRank(m, Level(m, x)) == 0 <==> ScaleOf(m).hasZero && x == 0.0
  {
    var b := Classify(ScaleOf(m), x);
    forall b' | b' != b
      ensures Level(m, x) != Label(ScaleOf(m), b')
    {
      LabelsDisjoint(m, b, m, b');
    }
  }

  /** A larger reading never gets a lower-ranked label. On a scale with a zero
      bin this fails only for a negative reading against a reading of 0 (see
      `NegativeReadingBreaksMonotonicity`). */
  lemma LevelMonotone(m: Measurement, x: real, y: real)
    requires x <= y
    requires ScaleOf(m).hasZero ==> 0.0 <= x || y != 0.0
    ensures LevelRank(m, Level(m, x)) <= LevelRank(m, Level(m, y))
  {
    LevelInRange(m, x);
    LevelInRange(m, y);
  }

  /** A negative reading falls into the Low bin, above the zero bin of a 0 reading. */
  lemma NegativeReadingBreaksMonotonicity()
    ensures FreightLevel(-1.0) == "Freight_Low" && FreightLevel(0.0) == "Freight_zero"
    ensures LevelRank(TotalFreight, FreightLevel(-1.0)) > LevelRank(TotalFreight, FreightLevel(0.0))
  {
    LevelInRange(TotalFreight, -1.0);
    LevelInRange(TotalFreight, 0.0);
  }

  /** The boundary side of the comparisons, at the literal cut-over points. */
  lemma BoundarySides()
    ensures PaxLevel(1999.0) == "Pax_Low" && PaxLevel(2000.0) == "Pax_Medium"
    ensures PaxLevel(6000.0) == "Pax_Medium"
    ensures PaxLevel(10000.0) == "Pax_Medium" && PaxLevel(10001.0) == "Pax_High"
    ensures FreightLevel(2.0) == "Freight_Medium" && MailLevel(2.0) == "Mail_Low"
    ensures FreightToLevel(0.75) == "FreightTo_Medium" && MailToLevel(1.5) == "MailTo_Low"
    ensures FreightFromLevel(20.0) == "FreightFrom_Medium" && FreightToLevel(20.0) == "FreightTo_High"
  {
  }
}

=== FILE: mining.dfy ===
/**
 * The mining run end to end: records to baskets, baskets to counts, counts to
 * scored rules, rules to the ranked table and its three views.
 *
 * Its contract is stated against the reference counts (`Occurrences`,
 * `CoOccurrences`) over the baskets: every rule in the table is one the
 * baskets support, every direction that clears both thresholds is in the
 * table, and the table is ranked.
 */
module Mining {
  import opened Counting
  import opened Basket
  import opened Rules
  import opened Ranking
  import opened Views

  /** `r` is a rule the transactions support: antecedent and consequent are
      distinct items whose co-occurrence count reaches the minimum support
      count and MinConfidence of the antecedent's count, and the metrics are
      the exact ratios of those counts. */
  predicate Sound(r: Rule, ts: seq<Transaction>)
  {
    var cnt := CoOccurrences(ts, r.antecedent, r.consequent);
    && r.antecedent != r.consequent
    && Clears(cnt, Occurrences(ts, r.antecedent), MinSupportCount(|ts|))
    && Scored(r, cnt, Occurrences(ts, r.antecedent), Occurrences(ts, r.consequent), |ts|)
  }

  /** The metrics of a supported rule lie in their ranges: 0 < support <= 1,
      MinConfidence <= confidence <= 1 and 0 < lift. */
  lemma SoundRuleBounds(r: Rule, ts: seq<Transaction>)
    requires Sound(r, ts)
    ensures 0.0 < r.support <= 1.0
    ensures MinConfidence <= r.confidence <= 1.0
    ensures 0.0 < r.lift
    ensures r.supportCount >= MinSupportCount(|ts|)
  {
    var a, c := r.antecedent, r.consequent;
    var cnt := CoOccurrences(ts, a, c);
    CoOccurrencesBounded(ts, a, c);
    OccurrencesBounded(ts, a);
    OccurrencesBounded(ts, c);
    ScoredBounds(r, cnt, Occurrences(ts, a), Occurrences(ts, c), |ts|);
    ConfidenceThreshold(cnt, Occurrences(ts, a));
  }

  /** The keys of a counter in some iteration order, each once. */
  method Enumerate<T>(s: set<T>) returns (xs: seq<T>)
    ensures forall x :: x in xs <==> x in s
    ensures forall i, j :: 0 <= i < j < |xs| ==> xs[i] != xs[j]
  {
    xs := [];
    var rest := s;
    while rest != {}
      invariant forall x :: x in s <==> x in xs || x in rest
      invariant forall x :: x in xs ==> x !in rest
      invariant forall i, j :: 0 <= i < j < |xs| ==> xs[i] != xs[j]
      decreases rest
    {
      var x :| x in rest;
      xs := xs + [x];
      rest := rest - {x};
    }
  }

  /** One mining run over `records`. */
  method Mine(records: seq<Record>) returns (table: seq<Rule>, seasonal: seq<Rule>, correlation: seq<Rule>, imbalance: seq<Rule>)
    ensures Ranked(table)
    ensures forall r :: r in table ==> Sound(r, Transactions(records))
    ensures forall a, c ::
      a != c && Clears(CoOccurrences(Transactions(records), a, c), Occurrences(Transactions(records), a), MinSupportCount(|records|))
      ==> exists r :: r in table && r.antecedent == a && r.consequent == c
    ensures |records| == 0 ==> table == []
    ensures DistinctKeys(table)
    ensures seasonal == ViewOf(table, Seasonality) && Ranked(seasonal)
    ensures correlation == ViewOf(table, TrafficCorrelation) && Ranked(correlation)
    ensures imbalance == ViewOf(table, TrafficImbalance) && Ranked(imbalance)
  {
    var ts := Transactions(records);
    var n := |ts|;
    var minCount := MinSupportCount(n);
    var itemCounts := ItemCounts(ts);
    var frequent := FrequentItems(itemCounts, minCount);
    var pairs := CandidatePairs(frequent);
    var pairCounts := PairCounts(ts, pairs);
    var order := Enumerate(pairCounts.Keys);
    CountedPairsBounded(ts, frequent, pairCounts, itemCounts);
    var rules := DeriveRules(order, pairCounts, itemCounts, n, minCount);
    table := SortRules(rules);
    MinedKeysDistinct(ts, frequent, pairCounts, itemCounts, order);
    MinedRulesSound(ts, frequent, pairCounts, itemCounts, rules, table);
    MinedRulesComplete(ts, frequent, pairCounts, itemCounts, order, rules, table);
    if |records| == 0 {
      EmptyCounts(pairs, minCount);
      assert order == [];
    }
    seasonal := ViewOf(table, Seasonality);
    correlation := ViewOf(table, TrafficCorrelation);
    imbalance := ViewOf(table, TrafficImbalance);
    ViewRanked(table, Seasonality);
    ViewRanked(table, TrafficCorrelation);
    ViewRanked(table, TrafficImbalance);
  }

  /** A counted pair holds two distinct items, and its count is at most
      either item's count, which is at most the number of transactions. */
  lemma CountedPairsBounded(ts: seq<Transaction>, frequent: set<Item>, pairCounts: map<Pair, nat>, itemCounts: map<Item, nat>)
    requires itemCounts == ItemCounts(ts)
    requires pairCounts == PairCounts(ts, CandidatePairs(frequent))
    ensures forall p :: p in pairCounts ==> p.0 != p.1
    ensures forall p :: p in pairCounts ==>
      pairCounts[p] <= Lookup(itemCounts, p.0) <= |ts| && pairCounts[p] <= Lookup(itemCounts, p.1) <= |ts|
  {
    forall p | p in pairCounts
      ensures p.0 != p.1
      ensures pairCounts[p] <= Lookup(itemCounts, p.0) <= |ts| && pairCounts[p] <= Lookup(itemCounts, p.1) <= |ts|
    {
      CandidatePairsCanonical(frequent, p.0, p.1);
      CoOccurrencesBounded(ts, p.0, p.1);
      OccurrencesBounded(ts, p.0);
      OccurrencesBounded(ts, p.1);
    }
  }

  /** A pair and its reverse are never both counted: candidate pairs are in
      sorted order. */
  lemma CountedPairsOneWay(frequent: set<Item>, pairCounts: map<Pair, nat>, ts: seq<Transaction>)
    requires pairCounts == PairCounts(ts, CandidatePairs(frequent))
    ensures forall p :: p in pairCounts ==> Swap(p) !in pairCounts
  {
    forall p | p in pairCounts
      ensures Swap(p) !in pairCounts
    {
      CandidatePairsCanonical(frequent, p.0, p.1);
    }
  }

  /** The sorted table never holds a direction twice: the counter's keys are
      visited once each, and never together with their reverse. */
  lemma MinedKeysDistinct(ts: seq<Transaction>, frequent: set<Item>, pairCounts: map<Pair, nat>,
                          itemCounts: map<Item, nat>, order: seq<Pair>)
    requires itemCounts == ItemCounts(ts)
    requires pairCounts == PairCounts(ts, CandidatePairs(frequent))
    requires forall p :: p in order <==> p in pairCounts
    requires forall i, j :: 0 <= i < j < |order| ==> order[i] != order[j]
    requires forall p :: p in order ==> p.0 != p.1
    requires forall p :: p in order ==>
      pairCounts[p] <= Lookup(itemCounts, p.0) <= |ts| && pairCounts[p] <= Lookup(itemCounts, p.1) <= |ts|
    ensures DistinctKeys(SortRules(DeriveRules(order, pairCounts, itemCounts, |ts|, MinSupportCount(|ts|))))
  {
    CountedPairsOneWay(frequent, pairCounts, ts);
    assert forall i, j :: 0 <= i < j < |order| ==> order[i] != Swap(order[j]) by {
      forall i, j | 0 <= i < j < |order|
        ensures order[i] != Swap(order[j])
      {
        assert order[i] in pairCounts && order[j] in pairCounts;
      }
    }
    var minCount := MinSupportCount(|ts|);
    DeriveRulesKeys(order, pairCounts, itemCounts, |ts|, minCount);
    SortKeepsKeysDistinct(DeriveRules(order, pairCounts, itemCounts, |ts|, minCount));
  }

  /** Every rule derived from the counters, and so every rule of the sorted
      table, is supported by the transactions. */
  lemma MinedRulesSound(ts: seq<Transaction>, frequent: set<Item>, pairCounts: map<Pair, nat>,
                        itemCounts: map<Item, nat>, rules: seq<Rule>, table: seq<Rule>)
    requires itemCounts == ItemCounts(ts)
    requires pairCounts == PairCounts(ts, CandidatePairs(frequent))
    requires forall r :: r in rules ==> Derived(r, pairCounts, itemCounts, |ts|, MinSupportCount(|ts|))
    requires multiset(table) == multiset(rules)
    ensures forall r :: r in table ==> Sound(r, ts)
  {
    forall r | r in table
      ensures Sound(r, ts)
    {
      assert r in multiset(rules);
      DerivedIsSound(ts, frequent, pairCounts, itemCounts, r);
    }
  }

  lemma DerivedIsSound(ts: seq<Transaction>, frequent: set<Item>, pairCounts: map<Pair, nat>,
                       itemCounts: map<Item, nat>, r: Rule)
    requires itemCounts == ItemCounts(ts)
    requires pairCounts == PairCounts(ts, CandidatePairs(frequent))
    requires Derived(r, pairCounts, itemCounts, |ts|, MinSupportCount(|ts|))
    ensures Sound(r, ts)
  {
    var a, c := r.antecedent, r.consequent;
    var minCount := MinSupportCount(|ts|);
    assert Lookup(itemCounts, a) == Occurrences(ts, a);
    assert Lookup(itemCounts, c) == Occurrences(ts, c);
    CoOccurrencesSymmetric(ts, a, c);
    if (a, c) in pairCounts && Clears(pairCounts[(a, c)], Lookup(itemCounts, a), minCount)
      && Scored(r, pairCounts[(a, c)], Lookup(itemCounts, a), Lookup(itemCounts, c), |ts|)
    {
      CandidatePairsCanonical(frequent, a, c);
      assert pairCounts[(a, c)] == CoOccurrences(ts, a, c);
    } else {
      CandidatePairsCanonical(frequent, c, a);
      assert pairCounts[(c, a)] == CoOccurrences(ts, c, a);
    }
  }

  /** Every direction that clears both thresholds on the transactions is a
      rule of the table. */
  lemma MinedRulesComplete(ts: seq<Transaction>, frequent: set<Item>, pairCounts: map<Pair, nat>,
                           itemCounts: map<Item, nat>, order: seq<Pair>, rules: seq<Rule>, table: seq<Rule>)
    requires itemCounts == ItemCounts(ts)
    requires frequent == FrequentItems(itemCounts, MinSupportCount(|ts|))
    requires pairCounts == PairCounts(ts, CandidatePairs(frequent))
    requires forall p :: p in order <==> p in pairCounts
    requires forall p :: p in order && Clears(pairCounts[p], Lookup(itemCounts, p.0), MinSupportCount(|ts|)) ==>
      exists r :: r in rules && r.antecedent == p.0 && r.consequent == p.1
    requires forall p :: p in order && Clears(pairCounts[p], Lookup(itemCounts, p.1), MinSupportCount(|ts|)) ==>
      exists r :: r in rules && r.antecedent == p.1 && r.consequent == p.0
    requires multiset(table) == multiset(rules)
    ensures forall a, c ::
      a != c && Clears(CoOccurrences(ts, a, c), Occurrences(ts, a), MinSupportCount(|ts|))
      ==> exists r :: r in table && r.antecedent == a && r.consequent == c
  {
    var minCount := MinSupportCount(|ts|);
    forall a, c | a != c && Clears(CoOccurrences(ts, a, c), Occurrences(ts, a), minCount)
      ensures exists r :: r in table && r.antecedent == a && r.consequent == c
    {
      CoOccurrencesBounded(ts, a, c);
      CoOccurrencesSymmetric(ts, a, c);
      FrequentIffSupported(ts, minCount, a);
      FrequentIffSupported(ts, minCount, c);
      CandidatePairsCanonical(frequent, a, c);
      var p := if (a, c) in CandidatePairs(frequent) then (a, c) else (c, a);
      assert p in pairCounts && p in order;
      var r :| r in rules && r.antecedent == a && r.consequent == c;
      assert r in multiset(table);
    }
  }
}

=== FILE: ranking.dfy ===
/**
 * The rule table's order: descending by lift, then confidence, then support.
 * The order among rules equal on all three keys is left open.
 */
module Ranking {
  import opened Rules

  /** `r1` may precede `r2`: its (lift, confidence, support) key is
      lexicographically at least that of `r2`. */
  predicate RanksAtLeast(r1: Rule, r2: Rule)
  {
    || r1.lift > r2.lift
    || (r1.lift == r2.lift && r1.confidence > r2.confidence)
    || (r1.lift == r2.lift && r1.confidence == r2.confidence && r1.support >= r2.support)
  }

  /** Non-increasing by key. */
  predicate Ranked(s: seq<Rule>)
  {
    forall i, j :: 0 <= i < j < |s| ==> RanksAtLeast(s[i], s[j])
  }

  /** The key order is a total preorder. */
  lemma RanksAtLeastTotalPreorder(r1: Rule, r2: Rule, r3: Rule)
    ensures RanksAtLeast(r1, r1)
    ensures RanksAtLeast(r1, r2) || RanksAtLeast(r2, r1)
    ensures RanksAtLeast(r1, r2) && RanksAtLeast(r2, r3) ==> RanksAtLeast(r1, r3)
  {
  }

  /** Insert `r` into a ranked table. */
  function Insert(r: Rule, s: seq<Rule>): (t: seq<Rule>)
    requires Ranked(s)
    ensures Ranked(t)
    ensures multiset(t) == multiset(s) + multiset{r}
  {
    if |s| == 0 then [r]
    else if RanksAtLeast(r, s[0]) then
      PrependRanked(r, s);
      [r] + s
    else
      var rest := Insert(r, s[1..]);
      HeadRanksAtLeastInsert(r, s, rest);
      PrependRanked(s[0], rest);
      assert s == [s[0]] + s[1..];
      [s[0]] + rest
  }

  /** A rule that ranks at least every rule of a ranked table can head it. */
  lemma PrependRanked(x: Rule, t: seq<Rule>)
    requires Ranked(t)
    requires |t| > 0 ==> RanksAtLeast(x, t[0])
    ensures Ranked([x] + t)
  {
    forall j | 0 <= j < |t|
      ensures RanksAtLeast(x, t[j])
    {
      RanksAtLeastTotalPreorder(x, t[0], t[j]);
    }
  }

  lemma HeadRanksAtLeastInsert(r: Rule, s: seq<Rule>, rest: seq<Rule>)
    requires |s| > 0 && Ranked(s) && !RanksAtLeast(r, s[0])
    requires multiset(rest) == multiset(s[1..]) + multiset{r}
    ensures |rest| > 0 ==> RanksAtLeast(s[0], rest[0])
  {
    if |rest| > 0 {
      var x := rest[0];
      assert x in multiset(rest);
      if x != r {
        assert x in multiset(s[1..]);
        var k :| 0 <= k < |s[1..]| && s[1..][k] == x;
        assert s[k + 1] == x;
      }
    }
  }

  /** The rule table sorted descending by (lift, confidence, support). */
  function SortRules(s: seq<Rule>): (t: seq<Rule>)
    ensures Ranked(t)
    ensures multiset(t) == multiset(s)
  {
    if |s| == 0 then []
    else
      assert s == [s[0]] + s[1..];
      Insert(s[0], SortRules(s[1..]))
  }

  /** Inserting a rule whose key the table lacks keeps keys distinct. */
  lemma {:induction false} InsertKeepsKeysDistinct(r: Rule, s: seq<Rule>)
    requires Ranked(s) && DistinctKeys(s)
    requires forall x :: x in s ==> Key(x) != Key(r)
    ensures DistinctKeys(Insert(r, s))
  {
    if |s| > 0 && !RanksAtLeast(r, s[0]) {
      var rest := Insert(r, s[1..]);
      InsertKeepsKeysDistinct(r, s[1..]);
      forall y | y in rest
        ensures Key(s[0]) != Key(y)
      {
        assert y in multiset(rest);
        if y != r {
          assert y in multiset(s[1..]);
          var k :| 0 <= k < |s[1..]| && s[1..][k] == y;
          assert s[k + 1] == y;
        }
      }
      AppendDistinctKeys([s[0]], rest);
    } else if |s| > 0 {
      AppendDistinctKeys([r], s);
    }
  }

  /** Sorting a key-distinct table keeps its keys distinct. */
  lemma {:induction false} SortKeepsKeysDistinct(s: seq<Rule>)
    requires DistinctKeys(s)
    ensures DistinctKeys(SortRules(s))
  {
    if |s| > 0 {
      var rest := SortRules(s[1..]);
      SortKeepsKeysDistinct(s[1..]);
      forall x | x in rest
        ensures Key(x) != Key(s[0])
      {
        assert x in multiset(rest);
        assert x in multiset(s[1..]);
        var k :| 0 <= k < |s[1..]| && s[1..][k] == x;
        assert s[k + 1] == x;
      }
      InsertKeepsKeysDistinct(s[0], rest);
    }
  }

  /** Sorting keeps exactly the rules it was given. */
  lemma SortKeepsRules(s: seq<Rule>, r: Rule)
    ensures r in SortRules(s) <==> r in s
  {
    assert r in SortRules(s) <==> r in multiset(SortRules(s));
    assert r in s <==> r in multiset(s);
  }
}

=== FILE: rules.dfy ===
/**
 * The rule deriver: every counted pair that reaches the minimum support
 * count is scored (support, confidence in both directions, lift), and each
 * direction whose confidence reaches the minimum becomes a directed rule.
 * Ratios are exact reals.
 */
module Rules {
  import opened Counting

  /** The confidence a direction must reach to be emitted. */
  const MinConfidence: real := 0.4

  /** One row of the rule table. */
  datatype Rule = Rule(
    antecedent: Item,
    consequent: Item,
    support: real,
    supportCount: nat,
    confidence: real,
    lift: real)

  /** `r` carries the metrics of a rule whose pair occurs in `cnt` of `n`
      transactions, its antecedent in `countAnte` and its consequent in
      `countCons`: support cnt/n, confidence cnt/countAnte, and lift the
      confidence over the consequent's own frequency countCons/n. */
  predicate Scored(r: Rule, cnt: nat, countAnte: nat, countCons: nat, n: nat)
  {
    && 0 < countAnte && 0 < countCons && 0 < n
    && r.supportCount == cnt
    && r.support == cnt as real / n as real
    && r.confidence == cnt as real / countAnte as real
    && r.lift == r.confidence / (countCons as real / n as real)
  }

  /** A direction clears both thresholds: the pair count reaches `minCount`
      and is at least MinConfidence of the antecedent's count. */
  predicate Clears(cnt: nat, countAnte: nat, minCount: nat)
  {
    cnt >= minCount && cnt as real >= MinConfidence * countAnte as real
  }

  /** Two rules are mirror images: the same pair read in opposite directions,
      with the same support and lift. */
  predicate Mirrored(r1: Rule, r2: Rule)
  {
    && r1.antecedent == r2.consequent && r1.consequent == r2.antecedent
    && r1.supportCount == r2.supportCount
    && r1.support == r2.support
    && r1.lift == r2.lift
  }

  /** A rule's direction: (antecedent, consequent). */
  function Key(r: Rule): Pair
  {
    (r.antecedent, r.consequent)
  }

  /** A pair read the other way round. */
  function Swap(p: Pair): Pair
  {
    (p.1, p.0)
  }

  /** No direction appears twice in `rs`. */
  predicate DistinctKeys(rs: seq<Rule>)
  {
    forall i, j :: 0 <= i < j < |rs| ==> Key(rs[i]) != Key(rs[j])
  }

  /** Two key-distinct tables whose keys never meet concatenate to a
      key-distinct table. */
  lemma AppendDistinctKeys(s: seq<Rule>, t: seq<Rule>)
    requires DistinctKeys(s) && DistinctKeys(t)
    requires forall x, y :: x in s && y in t ==> Key(x) != Key(y)
    ensures DistinctKeys(s + t)
  {
    forall i, j | 0 <= i < j < |s + t|
      ensures Key((s + t)[i]) != Key((s + t)[j])
    {
      if j < |s| {
        assert (s + t)[i] == s[i] && (s + t)[j] == s[j];
      } else if i < |s| {
        assert (s + t)[i] in s && (s + t)[j] in t;
      } else {
        assert (s + t)[i] == t[i - |s|] && (s + t)[j] == t[j - |s|];
      }
    }
  }

  /** The rules one counted pair (a, b) yields. */
  function RulesOfPair(a: Item, b: Item, cnt: nat, countA: nat, countB: nat, n: nat, minCount: nat): (rs: seq<Rule>)
    requires a != b && 1 <= minCount
    requires cnt <= countA <= n && cnt <= countB <= n
    ensures |rs| <= 2
    ensures forall r :: r in rs ==>
      || (r.antecedent == a && r.consequent == b && Scored(r, cnt, countA, countB, n))
      || (r.antecedent == b && r.consequent == a && Scored(r, cnt, countB, countA, n))
    ensures (exists r :: r in rs && r.antecedent == a) <==> Clears(cnt, countA, minCount)
    ensures (exists r :: r in rs && r.antecedent == b) <==> Clears(cnt, countB, minCount)
    ensures |rs| == 2 ==> Mirrored(rs[0], rs[1])
    ensures forall r :: r in rs ==> Key(r) == (a, b) || Key(r) == (b, a)
    ensures DistinctKeys(rs)
  {
    if cnt < minCount then []
    else
      var support := cnt as real / n as real;
      var confAB := cnt as real / countA as real;
      var confBA := cnt as real / countB as real;
      var liftAB := confAB / (countB as real / n as real);
      var liftBA := confBA / (countA as real / n as real);
      ConfidenceThreshold(cnt, countA);
      ConfidenceThreshold(cnt, countB);
      LiftSymmetric(cnt, countA, countB, n);
      (if confAB >= MinConfidence then [Rule(a, b, support, cnt, confAB, liftAB)] else [])
      + (if confBA >= MinConfidence then [Rule(b, a, support, cnt, confBA, liftBA)] else [])
  }

  /** Comparing the quotient with the threshold is comparing the count with
      the threshold's share of the antecedent count. */
  lemma ConfidenceThreshold(cnt: nat, countAnte: nat)
    requires 0 < countAnte
    ensures cnt as real / countAnte as real >= MinConfidence <==> cnt as real >= MinConfidence * countAnte as real
  {
    var q := cnt as real / countAnte as real;
    assert q * countAnte as real == cnt as real;
  }

  /** Lift is symmetric in the pair: both directions have lift
      cnt * n / (countA * countB). */
  lemma LiftSymmetric(cnt: nat, countA: nat, countB: nat, n: nat)
    requires 0 < countA && 0 < countB && 0 < n
    ensures (cnt as real / countA as real) / (countB as real / n as real)
         == (cnt as real / countB as real) / (countA as real / n as real)
  {
    var c, x, y, m := cnt as real, countA as real, countB as real, n as real;
    assert (c / x) / (y / m) == (c * m) / (x * y);
    assert (c / y) / (x / m) == (c * m) / (x * y);
  }

  /** The metrics of a scored rule lie in their ranges: 0 < support <= 1,
      0 < confidence <= 1 and 0 < lift, and lift equals the support over the
      product of the two items' frequencies. */
  lemma ScoredBounds(r: Rule, cnt: nat, countAnte: nat, countCons: nat, n: nat)
    requires Scored(r, cnt, countAnte, countCons, n)
    requires 1 <= cnt <= countAnte <= n && cnt <= countCons <= n
    ensures 0.0 < r.support <= 1.0
    ensures 0.0 < r.confidence <= 1.0
    ensures 0.0 < r.lift
    ensures r.lift == r.support / ((countAnte as real / n as real) * (countCons as real / n as real))
  {
    assert 0.0 < cnt as real <= countAnte as real <= n as real && 0.0 < countCons as real;
    MetricBounds(cnt as real, countAnte as real, countCons as real, n as real, r.support, r.confidence, r.lift);
  }

  lemma MetricBounds(c: real, a: real, b: real, m: real, support: real, confidence: real, lift: real)
    requires 0.0 < c <= a <= m && 0.0 < b
    requires support == c / m && confidence == c / a && lift == confidence / (b / m)
    ensures 0.0 < support <= 1.0
    ensures 0.0 < confidence <= 1.0
    ensures 0.0 < lift
    ensures lift == support / ((a / m) * (b / m))
  {
    RatioInUnitInterval(c, m);
    RatioInUnitInterval(c, a);
    PositiveQuotient(confidence, b / m);
    LiftOverFrequencies(c, a, b, m);
  }

  lemma RatioInUnitInterval(c: real, d: real)
    requires 0.0 < c <= d
    ensures 0.0 < c / d <= 1.0
  {
    assert (c / d) * d == c;
  }

  lemma PositiveQuotient(x: real, y: real)
    requires 0.0 < x && 0.0 < y
    ensures 0.0 < x / y
  {
  }

  lemma LiftOverFrequencies(c: real, a: real, b: real, m: real)
    requires 0.0 < a && 0.0 < b && 0.0 < m
    ensures (c / a) / (b / m) == (c / m) / ((a / m) * (b / m))
  {
    assert (c / a) / (b / m) == (c * m) / (a * b);
    assert (a / m) * (b / m) == (a * b) / (m * m);
    assert (c / m) / ((a * b) / (m * m)) == (c * m) / (a * b);
  }

  /** A lift of exactly 1 marks independence: the confidence then equals the
      consequent's own frequency. */
  lemma LiftOneIsIndependence(r: Rule, cnt: nat, countAnte: nat, countCons: nat, n: nat)
    requires Scored(r, cnt, countAnte, countCons, n)
    ensures r.lift == 1.0 <==> r.confidence == countCons as real / n as real
  {
    var f := countCons as real / n as real;
    assert f > 0.0;
    assert r.lift * f == r.confidence;
  }

  /** The rules derived from the counted pairs, visited in `order`. */
  function DeriveRules(order: seq<Pair>, pairCounts: map<Pair, nat>, itemCounts: map<Item, nat>, n: nat, minCount: nat): (rs: seq<Rule>)
    requires 1 <= minCount
    requires forall p :: p in order ==> p in pairCounts && p.0 != p.1
    requires forall p :: p in order ==>
      pairCounts[p] <= Lookup(itemCounts, p.0) <= n && pairCounts[p] <= Lookup(itemCounts, p.1) <= n
    ensures |rs| <= 2 * |order|
    ensures forall r :: r in rs ==> Derived(r, pairCounts, itemCounts, n, minCount)
    ensures forall p :: p in order && Clears(pairCounts[p], Lookup(itemCounts, p.0), minCount) ==>
      exists r :: r in rs && r.antecedent == p.0 && r.consequent == p.1
    ensures forall p :: p in order && Clears(pairCounts[p], Lookup(itemCounts, p.1), minCount) ==>
      exists r :: r in rs && r.antecedent == p.1 && r.consequent == p.0
  {
    if |order| == 0 then []
    else
      var init := order[..|order| - 1];
      var p := order[|order| - 1];
      assert forall q :: q in init ==> q in order;
      var prev := DeriveRules(init, pairCounts, itemCounts, n, minCount);
      var last := RulesOfPair(p.0, p.1, pairCounts[p], Lookup(itemCounts, p.0), Lookup(itemCounts, p.1), n, minCount);
      DerivedFromPair(last, p, pairCounts, itemCounts, n, minCount);
      prev + last
  }

  /** When every pair is visited once and never together with its reverse, no
      direction is derived twice, and each derived direction is a visited
      pair read one way or the other. */
  lemma {:induction false} DeriveRulesKeys(order: seq<Pair>, pairCounts: map<Pair, nat>, itemCounts: map<Item, nat>, n: nat, minCount: nat)
    requires 1 <= minCount
    requires forall p :: p in order ==> p in pairCounts && p.0 != p.1
    requires forall p :: p in order ==>
      pairCounts[p] <= Lookup(itemCounts, p.0) <= n && pairCounts[p] <= Lookup(itemCounts, p.1) <= n
    requires forall i, j :: 0 <= i < j < |order| ==> order[i] != order[j] && order[i] != Swap(order[j])
    ensures forall r :: r in DeriveRules(order, pairCounts, itemCounts, n, minCount) ==> Key(r) in order || Swap(Key(r)) in order
    ensures DistinctKeys(DeriveRules(order, pairCounts, itemCounts, n, minCount))
  {
    if |order| > 0 {
      var init := order[..|order| - 1];
      var p := order[|order| - 1];
      assert forall q :: q in init ==> q in order;
      assert forall i :: 0 <= i < |init| ==> init[i] == order[i];
      DeriveRulesKeys(init, pairCounts, itemCounts, n, minCount);
      var prev := DeriveRules(init, pairCounts, itemCounts, n, minCount);
      var last := RulesOfPair(p.0, p.1, pairCounts[p], Lookup(itemCounts, p.0), Lookup(itemCounts, p.1), n, minCount);
      DeriveRulesStep(order, pairCounts, itemCounts, n, minCount);
      assert (p.0, p.1) == p && (p.1, p.0) == Swap(p);
      LastPairIsNew(order);
      DeriveStepKeys(init, p, prev, last);
    }
  }

  /** One step of the derivation: the rules of the last pair follow those of
      the pairs before it. */
  lemma DeriveRulesStep(order: seq<Pair>, pairCounts: map<Pair, nat>, itemCounts: map<Item, nat>, n: nat, minCount: nat)
    requires |order| > 0 && 1 <= minCount
    requires forall p :: p in order ==> p in pairCounts && p.0 != p.1
    requires forall p :: p in order ==>
      pairCounts[p] <= Lookup(itemCounts, p.0) <= n && pairCounts[p] <= Lookup(itemCounts, p.1) <= n
    ensures forall q :: q in order[..|order| - 1] ==> q in order
    ensures order == order[..|order| - 1] + [order[|order| - 1]]
    ensures var p := order[|order| - 1];
      DeriveRules(order, pairCounts, itemCounts, n, minCount)
      == DeriveRules(order[..|order| - 1], pairCounts, itemCounts, n, minCount)
         + RulesOfPair(p.0, p.1, pairCounts[p], Lookup(itemCounts, p.0), Lookup(itemCounts, p.1), n, minCount)
  {
  }

  /** The last pair of a list without repeats or reversed repeats is new to
      the rest of the list, in either orientation. */
  lemma LastPairIsNew(order: seq<Pair>)
    requires |order| > 0
    requires forall i, j :: 0 <= i < j < |order| ==> order[i] != order[j] && order[i] != Swap(order[j])
    ensures order[|order| - 1] !in order[..|order| - 1]
    ensures Swap(order[|order| - 1]) !in order[..|order| - 1]
  {
  }

  /** Appending the rules of a new pair keeps directions distinct, and every
      direction still comes from a visited pair. */
  lemma DeriveStepKeys(init: seq<Pair>, p: Pair, prev: seq<Rule>, last: seq<Rule>)
    requires p !in init && Swap(p) !in init
    requires DistinctKeys(prev) && DistinctKeys(last)
    requires forall r :: r in prev ==> Key(r) in init || Swap(Key(r)) in init
    requires forall r :: r in last ==> Key(r) == p || Key(r) == Swap(p)
    ensures DistinctKeys(prev + last)
    ensures forall r :: r in prev + last ==> Key(r) in init + [p] || Swap(Key(r)) in init + [p]
  {
    AppendDistinctKeys(prev, last);
  }

  /** `r` is a rule the counted pairs justify: its pair, read in either
      order, is a counted pair, the direction clears both thresholds and the
      metrics are those of that count. */
  predicate Derived(r: Rule, pairCounts: map<Pair, nat>, itemCounts: map<Item, nat>, n: nat, minCount: nat)
  {
    var countAnte, countCons := Lookup(itemCounts, r.antecedent), Lookup(itemCounts, r.consequent);
    || ((r.antecedent, r.consequent) in pairCounts
        && Clears(pairCounts[(r.antecedent, r.consequent)], countAnte, minCount)
        && Scored(r, pairCounts[(r.antecedent, r.consequent)], countAnte, countCons, n))
    || ((r.consequent, r.antecedent) in pairCounts
        && Clears(pairCounts[(r.consequent, r.antecedent)], countAnte, minCount)
        && Scored(r, pairCounts[(r.consequent, r.antecedent)], countAnte, countCons, n))
  }

  lemma DerivedFromPair(rs: seq<Rule>, p: Pair, pairCounts: map<Pair, nat>, itemCounts: map<Item, nat>, n: nat, minCount: nat)
    requires p in pairCounts && p.0 != p.1 && 1 <= minCount
    requires pairCounts[p] <= Lookup(itemCounts, p.0) <= n && pairCounts[p] <= Lookup(itemCounts, p.1) <= n
    requires rs == RulesOfPair(p.0, p.1, pairCounts[p], Lookup(itemCounts, p.0), Lookup(itemCounts, p.1), n, minCount)
    ensures forall r :: r in rs ==> Derived(r, pairCounts, itemCounts, n, minCount)
  {
    var cnt := pairCounts[p];
    forall r | r in rs
      ensures Derived(r, pairCounts, itemCounts, n, minCount)
    {
      if r.antecedent == p.0 {
        assert Clears(cnt, Lookup(itemCounts, p.0), minCount);
        assert (r.antecedent, r.consequent) == p;
      } else {
        assert Clears(cnt, Lookup(itemCounts, p.1), minCount);
        assert (r.consequent, r.antecedent) == p;
      }
    }
  }

  /** The worked example: 100 transactions, X in 60, Y in 50, both in 40. */
  lemma WorkedExample()
    ensures RulesOfPair("X", "Y", 40, 60, 50, 100, 1) ==
      [Rule("X", "Y", 0.4, 40, 2.0 / 3.0, 4.0 / 3.0), Rule("Y", "X", 0.4, 40, 0.8, 4.0 / 3.0)]
  {
  }
}

=== FILE: strings.dfy ===
/**
 * String predicates the miner relies on: Python's ordering of `str` values
 * (used when the frequent items are sorted before pairing) and the prefix and
 * substring tests of the rule categorizer.
 */
module Strings {

  /** Python's `a < b` on `str`: lexicographic by code point, a proper prefix
      sorting first. (Dafny's own `<` on sequences means "proper prefix".) */
  predicate LexLess(a: string, b: string)
  {
    if |a| == 0 then |b| > 0
    else if |b| == 0 then false
    else if a[0] != b[0] then a[0] < b[0]
    else LexLess(a[1..], b[1..])
  }

  /** `str.startswith(prefix)` */
  predicate StartsWith(s: string, prefix: string)
  {
    |prefix| <= |s| && s[..|prefix|] == prefix
  }

  /** `part in s` (pandas `str.contains` with a literal pattern) */
  predicate Contains(s: string, part: string)
  {
    exists i | 0 <= i <= |s| - |part| :: OccursAt(s, part, i)
  }

  predicate OccursAt(s: string, part: string, i: int)
  {
    0 <= i && i + |part| <= |s| && s[i..i + |part|] == part
  }

  /** No string sorts strictly before itself. */
  lemma {:induction false} LexLessIrreflexive(a: string)
    ensures !LexLess(a, a)
  {
    if |a| > 0 {
      LexLessIrreflexive(a[1..]);
    }
  }

  /** Any two strings are equal or exactly one sorts before the other. */
  lemma {:induction false} LexLessTrichotomy(a: string, b: string)
    ensures a != b <==> LexLess(a, b) || LexLess(b, a)
    ensures !(LexLess(a, b) && LexLess(b, a))
  {
    if a == b {
      LexLessIrreflexive(a);
    } else if |a| > 0 && |b| > 0 && a[0] == b[0] {
      LexLessTrichotomy(a[1..], b[1..]);
      assert a == [a[0]] + a[1..] && b == [b[0]] + b[1..];
    }
  }

  /** Python's ordering on strings is transitive; with the two lemmas above it
      is a strict total order, so sorting the frequent items is well defined. */
  lemma {:induction false} LexLessTransitive(a: string, b: string, c: string)
    requires LexLess(a, b) && LexLess(b, c)
    ensures LexLess(a, c)
    decreases |a|
  {
    if |a| > 0 && a[0] == b[0] && b[0] == c[0] {
      LexLessTransitive(a[1..], b[1..], c[1..]);
    }
  }
}

=== FILE: views.dfy ===
/**
 * The rule categorizer: three read-only views of the ranked rule table,
 * selected by prefix and substring tests on the item labels.
 */
module Views {
  import opened Strings
  import opened Rules
  import opened Ranking

  datatype View = Seasonality | TrafficCorrelation | TrafficImbalance

  /** The views that keep only the first rules that match. */
  const ViewCap: nat := 50

  /** Whether view `v` selects rule `r`. No rule is in both the seasonality
      and the imbalance view: their antecedents start with different keys. */
  predicate Selects(v: View, r: Rule)
    ensures Selects(v, r) && v == TrafficImbalance ==> !StartsWith(r.antecedent, "Month=")
  {
    KeyPrefixesDisjoint(r.antecedent);
    match v
    case Seasonality =>
      StartsWith(r.antecedent, "Month=")
    case TrafficCorrelation =>
      && Contains(r.antecedent, "Pax")
      && (Contains(r.consequent, "Freight") || Contains(r.consequent, "Mail"))
    case TrafficImbalance =>
      && (StartsWith(r.antecedent, "Origin=") || StartsWith(r.antecedent, "Dest="))
      && (Contains(r.consequent, "PaxTo") || Contains(r.consequent, "PaxFrom"))
  }

  /** A label starts with at most one of the keys `Month=`, `Origin=` and `Dest=`. */
  lemma KeyPrefixesDisjoint(a: string)
    ensures StartsWith(a, "Month=") ==> !StartsWith(a, "Origin=") && !StartsWith(a, "Dest=")
  {
    if StartsWith(a, "Month=") {
      assert a[0] == a[..6][0] == 'M';
    }
  }

  /** `s` is `t` with some entries dropped and the rest in their order. */
  predicate IsSubsequence(s: seq<Rule>, t: seq<Rule>)
    decreases |t|
  {
    if |s| == 0 then true
    else if |t| == 0 then false
    else if s[0] == t[0] then IsSubsequence(s[1..], t[1..])
    else IsSubsequence(s, t[1..])
  }

  /** The rules of `table` that view `v` selects, in table order. */
  function Select(table: seq<Rule>, v: View): (s: seq<Rule>)
    ensures IsSubsequence(s, table)
    ensures forall r :: r in s <==> r in table && Selects(v, r)
  {
    if |table| == 0 then []
    else
      var rest := Select(table[1..], v);
      assert forall r :: r in table <==> r == table[0] || r in table[1..] by {
        assert table == [table[0]] + table[1..];
      }
      if Selects(v, table[0]) then
        assert ([table[0]] + rest)[1..] == rest;
        [table[0]] + rest
      else
        SubsequenceOfTail(rest, table);
        rest
  }

  /** A view: the selected rules, the first `ViewCap` of them for the
      correlation and imbalance views. */
  function ViewOf(table: seq<Rule>, v: View): (s: seq<Rule>)
    ensures IsSubsequence(s, table)
    ensures forall r :: r in s ==> r in table && Selects(v, r)
    ensures v != Seasonality ==> |s| <= ViewCap
    ensures (v == Seasonality || |s| < ViewCap) ==> forall r :: r in table && Selects(v, r) ==> r in s
    ensures s <= Select(table, v)
    ensures v == Seasonality ==> s == Select(table, v)
    ensures v != Seasonality ==>
      |s| == if |Select(table, v)| <= ViewCap then |Select(table, v)| else ViewCap
  {
    var selected := Select(table, v);
    if v == Seasonality || |selected| <= ViewCap then selected
    else
      PrefixIsSubsequence(selected[..ViewCap], selected);
      SubsequenceTransitive(selected[..ViewCap], selected, table);
      selected[..ViewCap]
  }

  /** A view of a ranked table is ranked. */
  lemma ViewRanked(table: seq<Rule>, v: View)
    requires Ranked(table)
    ensures Ranked(ViewOf(table, v))
  {
    SubsequenceRanked(ViewOf(table, v), table);
  }

  lemma {:induction false} SubsequenceOfTail(s: seq<Rule>, t: seq<Rule>)
    requires |t| > 0 && IsSubsequence(s, t[1..])
    ensures IsSubsequence(s, t)
    decreases |t|, |s|
  {
    if |s| > 0 && s[0] == t[0] {
      // t[0] also heads s, so s[1..] must sit in t[1..]
      SubsequenceDropHead(s, t[1..]);
    }
  }

  lemma {:induction false} SubsequenceDropHead(s: seq<Rule>, t: seq<Rule>)
    requires |s| > 0 && IsSubsequence(s, t)
    ensures IsSubsequence(s[1..], t)
    decreases |t|, |s|
  {
    if |t| > 0 {
      if s[0] == t[0] {
        SubsequenceOfTail(s[1..], t);
      } else {
        SubsequenceDropHead(s, t[1..]);
        SubsequenceOfTail(s[1..], t);
      }
    }
  }

  lemma {:induction false} PrefixIsSubsequence(s: seq<Rule>, t: seq<Rule>)
    requires s <= t
    ensures IsSubsequence(s, t)
    decreases |t|
  {
    if |s| > 0 {
      assert s[0] == t[0];
      PrefixIsSubsequence(s[1..], t[1..]);
    }
  }

  lemma {:induction false} SubsequenceTransitive(s: seq<Rule>, t: seq<Rule>, u: seq<Rule>)
    requires IsSubsequence(s, t) && IsSubsequence(t, u)
    ensures IsSubsequence(s, u)
    decreases |u|
  {
    if |s| > 0 && |u| > 0 {
      if t[0] == u[0] {
        if s[0] == t[0] {
          SubsequenceTransitive(s[1..], t[1..], u[1..]);
        } else {
          SubsequenceTransitive(s, t[1..], u[1..]);
        }
      } else {
        SubsequenceTransitive(s, t, u[1..]);
        SubsequenceOfTail(s, u);
      }
    }
  }

  /** Dropping rules from a ranked table leaves it ranked. */
  lemma {:induction false} SubsequenceRanked(s: seq<Rule>, t: seq<Rule>)
    requires IsSubsequence(s, t) && Ranked(t)
    ensures Ranked(s)
    decreases |t|
  {
    if |s| > 0 && |t| > 0 {
      if s[0] == t[0] {
        SubsequenceRanked(s[1..], t[1..]);
        forall j | 1 <= j < |s|
          ensures RanksAtLeast(s[0], s[j])
        {
          SubsequenceMember(s[1..], t[1..], j - 1);
        }
      } else {
        SubsequenceRanked(s, t[1..]);
      }
    }
  }

  lemma {:induction false} SubsequenceMember(s: seq<Rule>, t: seq<Rule>, j: nat)
    requires IsSubsequence(s, t) && j < |s|
    ensures s[j] in t
    decreases |t|
  {
    if s[0] == t[0] {
      if j > 0 {
        SubsequenceMember(s[1..], t[1..], j - 1);
      }
    } else {
      SubsequenceMember(s, t[1..], j);
    }
  }
}
